=== FILE: README.md ===
# Account credential and verification state machine

A Dafny model of the account lifecycle of a pet-care API: registration with
an e-mailed six-digit code, e-mail verification, login issuing a bearer
token, resending the code, password reset, and the small rules these rely on
(the password policy, the code generators, the `User` and `Pet` model
defaults with their write-once `created_at`, the access-token payload, the
authenticated/verified request gates, and the profile "initial").

Accounts live in a store `map<string, User>` keyed by e-mail. Every
operation is a pure function of the store, the current time and its inputs,
returning `Success(new store or reply)` or `Failure(HttpError(status, detail))`.
A failure carries no store: nothing is committed and the caller keeps the
store it had. Times are integer UTC seconds, so the naive-to-aware
normalisation of a stored expiry is the identity.

Modules, one per source file or component:

- `Wrappers`, `HttpErrors` (wrappers.dfy): `Option`, `Result`, the HTTP statuses and details.
- `Text` (text.dfy): ASCII digits, `str(n)` / `int(s)` for naturals, `str.upper` of one character.
- `Attributes` (attributes.dfy): a model instance as its attribute map and the write-once `__setattr__`.
- `UserModel`, `PetModel`: the records, their defaults and string enums.
- `UserSchema`: the `UserCreate` password policy.
- `Helpers`: `generate_verification_code`.
- `Security`: the abstract password hasher.
- `Jwt`: access-token payload and decoding.
- `Dependencies`: `get_current_user`, `check_verified_user`.
- `UserService`, `UserRoutes`: the profile view, in the service and in the route.
- `AuthService`: the state machine; `AuthRoutes`: the older inline register handler.
- `AuthProperties`: lemmas relating several operations.

Abstractions:

- Hashing is a `Hasher` value holding two function values, `hash` and `verify`.
  The one fact the core relies on, that a password verifies against its own
  hash, is the predicate `Security.Sound`, assumed by the lemmas that need it.
- Random codes: the pure transitions (`RegisterWithCode`, `ResendWithCode`,
  `AuthRoutes.Register`) take the drawn value as a parameter. The methods
  (`RegisterNewUser`, `ResendVerificationEmail`, `AuthRoutes.RegisterNewUser`)
  draw it by nondeterministic choice and prove what every draw satisfies.
- Signing: a token is `Signed(alg, claims, key)` or `Malformed(raw)`.
  `Jwt.JoseDecode` states what the JOSE library's `jwt.decode` is taken to do.
  It refuses malformed tokens, an algorithm outside the allowed list, a
  different key, a non-integer `exp`, an `exp` earlier than now, a
  non-integer `nbf` or one later than now, a non-integer `iat`, a non-string
  `sub` or `jti`, and any `aud` or `at_hash` claim.
- `get_current_user`'s lookup `session.get(User, int(sub))` is the function
  parameter `findById`.

Three things the code does not do, and the model does not either:

- Login never sets `last_login_at` (app/services/auth_service.py:146-154).
- Verification does not refresh `updated_at` (app/services/auth_service.py:106-108).
- `request_password_reset` does not keep unknown addresses indistinguishable
  (see Findings).

## Model

| member | source | states |
|---|---|---|
| Text.AnyDigit | app/schemas/user.py:16 | the scan is true exactly when some character of the password is an ASCII digit |
| Text.DecimalString | app/api/routes/auth.py:45 | the decimal form of a natural is a non-empty string of digits |
| Text.ParseDecimalString | app/api/routes/auth.py:45 | reading the decimal form of `n` back gives `n` |
| Text.DecimalStringLength | app/api/routes/auth.py:45 | the decimal form has as many characters as the number has digits |
| Text.DecimalStringNoLeadingZero | app/api/routes/auth.py:45 | the decimal form of a positive number does not start with '0' |
| Text.SixDigitRange | app/api/routes/auth.py:45 | every number from 100000 to 999999 has six digits |
| Text.ToUpper | app/services/user_service.py:21-22 | lower-case ASCII letters map to their capitals, every other character is kept, and no ASCII lower-case letter comes out |
| UserSchema.ValidatePassword | app/schemas/user.py:11-18 | a password is accepted iff 8 <= length <= 128 and it holds a digit; too short, too long and no digit are each rejected with their own error; an accepted password comes back unchanged |
| UserSchema.ValidateUserCreate | app/schemas/user.py:9-18 | the request body is built iff the password is acceptable, and then holds the e-mail as given (already normalised) and the password unchanged |
| Helpers.GenerateVerificationCode | app/utils/helpers.py:7-8 | the code has exactly `length` characters (none for a negative length, default 6), each in '0'..'9' |
| Attributes.WriteOnceSetAttr | app/models/user.py:37-44 | assigning `created_at` when it already exists raises "created_at is immutable" and leaves the instance as it was; an assignment to any other declared field sets that field and keeps all others |
| Attributes.AssignAllDistinct | app/models/user.py:28-35 | assigning distinct fields one after another, without re-assigning an existing `created_at`, raises nothing, sets each listed field and keeps the rest |
| Attributes.AssignAllOverPresentCreatedAtRaises | app/models/user.py:42-43 | if `hasattr(self, "created_at")` already holds on a fresh instance, constructing it with a `created_at` raises "created_at is immutable" |
| Attributes.ConstructedIsWriteOnce | app/models/user.py:42-44 | an instance constructed with a `created_at` refuses every later assignment to it, unchanged, and accepts every assignment to another of its declared fields |
| UserModel.ParseRole | app/models/user.py:11-13 | a role is recovered from exactly the strings "USER" and "ADMIN" |
| UserModel.RoleRoundTrip | app/models/user.py:11-13 | `Role` has exactly the members USER and ADMIN, and each is found from its value and only from it |
| UserModel.NewUser | app/models/user.py:16-35 | a user built from the registration arguments is enabled, unverified, role USER, with no id, name or last login, and holds the given e-mail, hash, code, expiry and timestamps; the code and expiry default to `None` |
| UserModel.NewUserDefaults | app/models/user.py:28-35 | a user built without a verification code has no code and no expiry, and no id, name or last login, is enabled, unverified and role USER |
| UserModel.UserCreatedAtWriteOnce | app/models/user.py:33-44 | building a `User` sets its `created_at`; a later assignment to it raises and leaves the instance unchanged; every other declared field assigns through |
| PetModel.ParseSex | app/models/pet.py:10-17 | a sex is recovered from exactly "Male", "Female" and "Not Specified" |
| PetModel.SexRoundTrip | app/models/pet.py:10-17 | `Sex` has exactly three members, and each is found from its value and only from it |
| PetModel.NewPet | app/models/pet.py:33-61 | a new pet has sex NOT_SPECIFIED, no id, name, species, breed, birth date or image, the given owner, and both timestamps at creation time |
| PetModel.PetCreatedAtWriteOnce | app/models/pet.py:60-70 | building a `Pet` sets its `created_at`; a later assignment to it raises and leaves the instance unchanged; every other declared field, `updated_at` included, assigns through |
| Jwt.CreateAccessToken | app/core/jwt.py:26-32 | the token is signed under HS256 with the secret; its claims are every input claim unchanged plus `exp` = now + 21600 |
| Jwt.DecodeAccessToken | app/core/jwt.py:11-23 | any decoding failure is 401 "Could not validate credentials" and never a partial payload; success returns the token's claims exactly, with a string `sub` if any and no `aud` or `at_hash`; a token under another algorithm or another key is refused |
| Jwt.CreateThenDecode | app/core/jwt.py:14-32 | a created token whose `sub`, if any, is a string and which carries no `aud`, `nbf`, `iat`, `jti` or `at_hash` decodes with the same secret to the claims it was signed with, up to and including its expiry instant |
| Jwt.NonTextSubjectRejected | app/core/jwt.py:14-23 | a token whose `sub` is not a string is refused with 401 "Could not validate credentials" |
| Jwt.ExpiredTokenRejected | app/core/jwt.py:14-29 | after its expiry a created token is refused with 401 |
| Dependencies.GetCurrentUser | app/api/dependencies.py:13-23 | every failure is a 401: an undecodable token, then a missing or falsy `sub` ("Invalid authentication credentials"), then no stored user ("Account not found"); otherwise exactly the stored user |
| Dependencies.CheckVerifiedUser | app/api/dependencies.py:26-30 | an unverified user gets 403; a verified one is returned unchanged |
| Dependencies.CurrentVerifiedUser | app/api/dependencies.py:26-30 | authentication errors come before the 403; the dependency succeeds exactly when authentication succeeds with a verified user, and then returns that user |
| Dependencies.TokenAuthenticatesItsSubject | app/api/dependencies.py:13-23 | a token created for a non-empty string subject that resolves to a user, and carrying no `aud`, `nbf`, `iat`, `jti` or `at_hash`, authenticates as that user for its whole lifetime |
| UserService.GetCurrentUserDetails | app/services/user_service.py:8-32 | e-mail, name, role and verified flag are the user's; the initial is one character that is not an ASCII lower-case letter: the upper-cased first character of the name when it is non-empty, otherwise of the e-mail |
| UserRoutes.GetCurrentUserDetails | app/api/routes/user.py:14-31 | the route answers status "success" with the fixed message and exactly the user's e-mail, name, role, verified flag and the name-then-e-mail initial |
| UserRoutes.RouteMatchesService | app/api/routes/user.py:17-26 | the route's data equals the service's profile for every user |
| AuthService.GenerateVerificationCode | app/services/auth_service.py:21-23 | the code is `length` digits long (default 6), as the helper's |
| AuthService.RegisterWithCode | app/services/auth_service.py:41-63 | an existing e-mail gives 409 "Account already exists"; otherwise exactly one account is added, all others kept: unverified, enabled, role USER, the password's hash, the drawn code expiring at now + 600 |
| AuthService.RegisterNewUser | app/services/auth_service.py:26-65 | with a freshly drawn code, the new account's code is six ASCII digits and expires at now + 600, and it holds the password's hash |
| AuthService.VerifyUserEmail | app/services/auth_service.py:85-111 | 404 before 409 before 400; success iff the code equals the stored one and the stored expiry is present and not before now; success sets verified and clears code and expiry, and changes nothing else |
| AuthService.LoginExistingUser | app/services/auth_service.py:135-154 | a missing account and a wrong password give the same 401, checked before the 403 for unverified; success iff found, password verifies and verified; the bearer token's claims are `sub` = the e-mail and `exp` = the reported expiry = now + 21600 |
| AuthService.ResendWithCode | app/services/auth_service.py:167-187 | 404, then 409 "Account is already verified"; otherwise only that account's code, expiry (now + 600) and `updated_at` change |
| AuthService.ResendVerificationEmail | app/services/auth_service.py:157-189 | 404 for an unknown e-mail, 409 for a verified one, success exactly for an unverified one; then, with a freshly drawn code, that account's pending code becomes six ASCII digits expiring at now + 600 with `updated_at` now, every other field of it and every other account unchanged |
| AuthService.ResetUserPassword | app/services/auth_service.py:223-239 | for an existing account, only its password hash (now the new password's) and `updated_at` change |
| AuthService.RequestPasswordResetAsWritten | app/services/auth_service.py:202-209 | as written, the request fails with an unhandled error exactly when the address has no account, and otherwise mails that account whether verified or not |
| AuthService.RequestPasswordResetAsWrittenLeaks | app/services/auth_service.py:205-209 | an unknown address gets an error while an unverified known one is sent a reset mail, so the reply reveals which addresses exist |
| AuthService.RequestPasswordReset | app/services/auth_service.py:205-206 | corrected: a reset mail goes out iff the account exists and is verified, addressed to it, for its e-mail |
| AuthService.RequestPasswordResetIndistinguishable | app/services/auth_service.py:205-206 | corrected: an unknown address and an unverified account get the same outcome, the same reply and no mail, in any two stores |
| AuthRoutes.Register | app/api/routes/auth.py:38-64 | an existing e-mail gives 409 and adds nothing; otherwise one unverified account holding the password's hash, the decimal code and expiry now + 600, with the success message |
| AuthRoutes.RegisterNewUser | app/api/routes/auth.py:45-47 | the drawn code is exactly six ASCII digits, does not start with '0', and reads back as a number from 100000 to 999999 |
| AuthRoutes.RegisterMatchesService | app/api/routes/auth.py:38-60 | given the same code, the inline handler and the service build the same store and fail the same way |
| AuthProperties.RegisterKeepsConsistent | app/services/auth_service.py:53-60 | registration keeps the store invariant: filed under own e-mail, code iff expiry, verified implies no code |
| AuthProperties.VerifyKeepsConsistent | app/services/auth_service.py:106-108 | verification keeps the store invariant |
| AuthProperties.ResendKeepsConsistent | app/services/auth_service.py:174-184 | resending keeps the store invariant |
| AuthProperties.ResetKeepsConsistent | app/services/auth_service.py:229-233 | a password reset keeps the store invariant |
| AuthProperties.VerifyTwiceConflicts | app/services/auth_service.py:92-108 | verifying twice with the same valid code succeeds once, then gives 409 |
| AuthProperties.ExpiredCodeRejected | app/services/auth_service.py:96-104 | a matching code one second past its expiry gives 400 |
| AuthProperties.ResendInvalidatesOldCode | app/services/auth_service.py:178-184 | after a resend every other code gives 400, and the new code verifies iff at most 600 s have passed |
| AuthProperties.ResendTwiceInvalidatesFirst | app/services/auth_service.py:170-184 | after two resends the first code gives 400 at any time |
| AuthProperties.RegisterVerifyLogin | app/services/auth_service.py:49-148 | register, verify with the drawn code within ten minutes, then log in: the login succeeds and its token decodes to `sub` = the e-mail until its expiry |

## Left out

- E-mail dispatch (`EmailService`): network I/O, awaited after the commit; treated as a no-op.
- Password hashing, including its per-call salt: a `Hasher` is any pair of functions, so `hash` is deterministic here.
- AuthService.RegisterWithCode: "never the plaintext" is stated only as "the stored value is `hash(password)`". A hasher returning its input would satisfy it.
- Cryptographic signing: a token records its algorithm and key instead of a signature.
- Jwt.DecodeAccessToken: the library's checks of `exp`, `nbf`, `iat`, `sub`, `jti`, `aud` and `at_hash` are modelled, with no leeway; the `iss` check is not (no issuer is passed, so it never refuses), and a textual `exp`, `nbf` or `iat` is always refused where the library would first try to convert it.
- Jwt.CreateAccessToken: "does not mutate its input" is not stated. Dafny maps are values, so no call can change its argument.
- Configuration loading: only the default `JWT_EXPIRATION_TIME` of 21600 seconds is used, and `JWT_SECRET_KEY` is a parameter.
- Clock reads: each call reads one `now`; the source reads the clock separately for expiry, `created_at` and `updated_at`.
- Database: ids assigned on commit, sessions and commit/refresh, and concurrency. E-mail lookup is exact map membership.
- Dependencies.GetCurrentUser: `int(sub)` and `session.get` are the abstract `findById`, so a non-numeric `sub` (a 500 in the source) is folded into the lookup. Login puts the e-mail in `sub` while this lookup expects an id; the model does not resolve that mismatch.
- `reset_user_password` decodes its token with `decode_token`. `request_password_reset` mints one with `create_password_reset_token`. Neither helper is defined in app/core/jwt.py, so the model starts from the decoded subject and leaves token minting out.
- AuthService.ResetUserPassword: requires the account to exist, because the source dereferences a possibly-`None` account.
- Unicode: `str.isdigit` and `str.upper` are modelled on ASCII only. Python also accepts non-ASCII digits and upper-cases non-ASCII letters, and `upper()` may return several characters (`'ß'.upper() == 'SS'`), so the source's initial is not always one character.
- UserSchema.ValidateUserCreate: the e-mail is taken as already validated and normalised by `EmailStr` (whitespace stripped, a display-name wrapper dropped, the address normalised), and is kept verbatim. Every request schema normalises the same way, so store lookups are unaffected.
- The non-empty e-mail the profile initial relies on is taken as given.
- `hasattr` is "the attribute has been assigned". `User` and `Pet` are ORM table classes whose columns are class-level descriptors, which may already answer `hasattr(self, "created_at")` on a fresh instance; then constructing either with `created_at` would raise (Attributes.AssignAllOverPresentCreatedAtRaises), and registration could not succeed. Which holds depends on library internals outside this model.
- Attributes.WriteOnceSetAttr: an assignment to a name that is not a declared field is refused by the model base class with a `ValueError`; the attribute map does not model that, so the write-once lemmas speak only of declared fields.
- Attributes.ConstructedIsWriteOnce: its "construction raises nothing" rests on `hasattr` being false before the first assignment, as above.
- UserModel.UserCreatedAtWriteOnce: building a `User` succeeds only under the same assumption about `hasattr`.
- PetModel.PetCreatedAtWriteOnce: building a `Pet` succeeds only under the same assumption about `hasattr`.
- The `Species` table, the pet's `owner` relationship, and the response envelope's wall-clock `timestamp`.
- Health routes, the v1 route wrappers, logging, exception handlers and app wiring.

## Findings

| source | as written | input that shows it | evidently intended | confidence | as-written member | corrected member |
|---|---|---|---|---|---|---|
| app/services/auth_service.py:205-209 | the guard's body is `...`, so the handler goes on to mint a token and read `existing_user.email` | an address with no account: the read on `None` raises, giving a 500, while a registered address gets success; an unverified account is also sent a reset link | do nothing unless the account exists and is verified, and reply the same way for every address | high, not executed | AuthService.RequestPasswordResetAsWritten | AuthService.RequestPasswordReset |

=== FILE: attributes.dfy ===
/** The attribute store of a model instance and the write-once `created_at`
    rule that `User.__setattr__` and `Pet.__setattr__` both implement.
    An instance is the map of the attributes assigned so far, so
    `hasattr(self, name)` is `name in obj`. */
module Attributes {
  import opened Wrappers

  /** The attribute values the two models hold; times are UTC seconds and
      string enums are held as their string value. */
  datatype Value = NoneValue | BoolValue(b: bool) | IntValue(i: int) | StrValue(s: string) | TimeValue(t: int)

  type Attrs = map<string, Value>

  /** An `Optional[...]` field: `None` or the value. */
  function OptionalText(s: Option<string>): Value {
    if s.Some? then StrValue(s.value) else NoneValue
  }

  function OptionalInt(n: Option<int>): Value {
    if n.Some? then IntValue(n.value) else NoneValue
  }

  function OptionalTime(t: Option<int>): Value {
    if t.Some? then TimeValue(t.value) else NoneValue
  }

  const CreatedAt: string := "created_at"
  const ImmutableMessage: string := "created_at is immutable"

  datatype AttributeError = AttributeError(message: string)

  /** The instance after an assignment statement, and the exception it raised. */
  datatype Outcome = Outcome(obj: Attrs, raised: Option<AttributeError>)

  /** `__setattr__(self, name, value)`: refuse `created_at` once it exists,
      otherwise assign. */
  function WriteOnceSetAttr(obj: Attrs, name: string, v: Value): (r: Outcome)
    ensures r.raised.Some? <==> name == CreatedAt && CreatedAt in obj
    ensures r.raised.Some? ==> r.raised.value == AttributeError(ImmutableMessage) && r.obj == obj
    ensures r.raised.None? ==> r.obj.Keys == obj.Keys + {name} && r.obj[name] == v
    ensures r.raised.None? ==> forall k :: k in obj && k != name ==> r.obj[k] == obj[k]
  {
    if name == CreatedAt && CreatedAt in obj then Outcome(obj, Some(AttributeError(ImmutableMessage)))
    else Outcome(obj[name := v], None)
  }

  /** Assigning `fields` in order, stopping at the first raise. */
  function AssignAll(obj: Attrs, fields: seq<(string, Value)>): Outcome
    decreases |fields|
  {
    if |fields| == 0 then Outcome(obj, None)
    else
      var o := WriteOnceSetAttr(obj, fields[0].0, fields[0].1);
      if o.raised.Some? then o else AssignAll(o.obj, fields[1..])
  }

  /** Construction assigns every field, defaults included, to a fresh instance. */
  function Construct(fields: seq<(string, Value)>): Outcome
  {
    AssignAll(map[], fields)
  }

  predicate DistinctNames(fields: seq<(string, Value)>) {
    forall i, j :: 0 <= i < j < |fields| ==> fields[i].0 != fields[j].0
  }

  function Names(fields: seq<(string, Value)>): set<string> {
    set i | 0 <= i < |fields| :: fields[i].0
  }

  /** Assigning distinct names that do not re-assign an existing `created_at`
      raises nothing, sets every listed field and keeps every other one. */
  lemma {:induction false} AssignAllDistinct(obj: Attrs, fields: seq<(string, Value)>)
    requires DistinctNames(fields)
    requires CreatedAt in obj ==> CreatedAt !in Names(fields)
    ensures AssignAll(obj, fields).raised.None?
    ensures AssignAll(obj, fields).obj.Keys == obj.Keys + Names(fields)
    ensures forall i :: 0 <= i < |fields| ==> AssignAll(obj, fields).obj[fields[i].0] == fields[i].1
    ensures forall k :: k in obj && k !in Names(fields) ==> AssignAll(obj, fields).obj[k] == obj[k]
    decreases |fields|
  {
    if |fields| > 0 {
      var o := WriteOnceSetAttr(obj, fields[0].0, fields[0].1);
      var rest := fields[1..];
      assert Names(fields) == {fields[0].0} + Names(rest) by {
        forall n | n in Names(fields) ensures n in {fields[0].0} + Names(rest) {
          var i :| 0 <= i < |fields| && fields[i].0 == n;
          if i > 0 { assert rest[i - 1].0 == n; }
        }
      }
      assert fields[0].0 !in Names(rest);
      AssignAllDistinct(o.obj, rest);
      forall i | 0 <= i < |fields|
        ensures AssignAll(obj, fields).obj[fields[i].0] == fields[i].1
      {
        if i > 0 { assert fields[i] == rest[i - 1]; }
      }
    }
  }

  /** If `hasattr(self, "created_at")` already holds before the first
      assignment, as it does when the class itself answers for the name,
      construction with a `created_at` raises. */
  lemma {:induction false} AssignAllOverPresentCreatedAtRaises(obj: Attrs, fields: seq<(string, Value)>)
    requires CreatedAt in obj
    requires CreatedAt in Names(fields)
    ensures AssignAll(obj, fields).raised == Some(AttributeError(ImmutableMessage))
    decreases |fields|
  {
    if fields[0].0 != CreatedAt {
      var o := WriteOnceSetAttr(obj, fields[0].0, fields[0].1);
      var i :| 0 <= i < |fields| && fields[i].0 == CreatedAt;
      assert fields[1..][i - 1].0 == CreatedAt;
      assert CreatedAt in Names(fields[1..]);
      AssignAllOverPresentCreatedAtRaises(o.obj, fields[1..]);
    }
  }

  /** Once constructed with a `created_at`, an instance refuses every later
      assignment to it and leaves itself unchanged; an assignment to any other
      of its fields goes through and touches only that field. */
  lemma {:induction false} ConstructedIsWriteOnce(fields: seq<(string, Value)>, name: string, v: Value)
    requires DistinctNames(fields)
    requires CreatedAt in Names(fields)
    requires name in Names(fields)
    ensures Construct(fields).raised.None?
    ensures var obj := Construct(fields).obj;
            var after := WriteOnceSetAttr(obj, name, v);
            && (name == CreatedAt ==> after.raised.Some? && after.obj == obj)
            && (name != CreatedAt ==> after.raised.None? && after.obj == obj[name := v])
  {
    AssignAllDistinct(map[], fields);
  }
}

=== FILE: auth_properties.dfy ===
/** Properties that relate several `AuthService` operations: the store
    invariant they keep, the one-shot use of a code, the overwrite on resend,
    and the register / verify / login path end to end. */
module AuthProperties {
  import opened Wrappers
  import opened HttpErrors
  import opened Security
  import opened UserSchema
  import opened Jwt
  import opened AuthService

  /** A new account is unverified with a pending code and expiry, so the
      invariant holds for the store a registration builds. */
  lemma RegisterKeepsConsistent(store: Store, now: int, req: UserCreate, h: Hasher, code: string)
    requires Consistent(store)
    requires RegisterWithCode(store, now, req, h, code).Success?
    ensures Consistent(RegisterWithCode(store, now, req, h, code).value)
  {
  }

  /** Verification sets the flag and clears code and expiry together, which is
      what keeps "verified implies no code". */
  lemma VerifyKeepsConsistent(store: Store, now: int, email: string, code: string)
    requires Consistent(store)
    requires VerifyUserEmail(store, now, email, code).Success?
    ensures Consistent(VerifyUserEmail(store, now, email, code).value)
  {
  }

  /** Resending only touches unverified accounts and sets code and expiry together. */
  lemma ResendKeepsConsistent(store: Store, now: int, email: string, code: string)
    requires Consistent(store)
    requires ResendWithCode(store, now, email, code).Success?
    ensures Consistent(ResendWithCode(store, now, email, code).value)
  {
  }

  /** A password reset touches neither the flags nor the pending code. */
  lemma ResetKeepsConsistent(store: Store, now: int, email: string, newPassword: string, h: Hasher)
    requires Consistent(store)
    requires email in store
    ensures Consistent(ResetUserPassword(store, now, email, newPassword, h))
  {
  }

  /** A code works once: the same submission again, at any time, is a 409. */
  lemma VerifyTwiceConflicts(store: Store, t1: int, t2: int, email: string, code: string)
    requires VerifyUserEmail(store, t1, email, code).Success?
    ensures VerifyUserEmail(VerifyUserEmail(store, t1, email, code).value, t2, email, code)
            == Failure(HttpError(Conflict409, AlreadyVerifiedDetail))
  {
  }

  /** One second past its expiry a code is refused, even when it matches. */
  lemma ExpiredCodeRejected(store: Store, now: int, email: string)
    requires email in store && !store[email].isVerified
    requires store[email].verificationCode.Some?
    requires store[email].verificationCodeExpiresAt == Some(now - 1)
    ensures VerifyUserEmail(store, now, email, store[email].verificationCode.value)
            == Failure(HttpError(BadRequest400, InvalidCodeDetail))
  {
  }

  /** After a resend only the new code verifies, and only until ten minutes
      after the resend; every earlier code is refused. */
  lemma ResendInvalidatesOldCode(store: Store, now: int, email: string, newCode: string, submitted: string, t: int)
    requires ResendWithCode(store, now, email, newCode).Success?
    ensures var s' := ResendWithCode(store, now, email, newCode).value;
            && (submitted != newCode ==>
                  VerifyUserEmail(s', t, email, submitted) == Failure(HttpError(BadRequest400, InvalidCodeDetail)))
            && (VerifyUserEmail(s', t, email, newCode).Success? <==> t <= now + CodeLifetime)
  {
  }

  /** Two resends in a row: the first code no longer verifies, whenever it
      is submitted. */
  lemma ResendTwiceInvalidatesFirst(store: Store, t1: int, t2: int, t: int, email: string, first: string, second: string)
    requires first != second
    requires ResendWithCode(store, t1, email, first).Success?
    ensures ResendWithCode(ResendWithCode(store, t1, email, first).value, t2, email, second).Success?
    ensures var s2 := ResendWithCode(ResendWithCode(store, t1, email, first).value, t2, email, second).value;
            VerifyUserEmail(s2, t, email, first) == Failure(HttpError(BadRequest400, InvalidCodeDetail))
  {
  }

  /** Register at `t0`, verify with the drawn code by `t0 + 600`, then log in
      with the same password: the login succeeds and its token authenticates
      the e-mail until the reported expiry. Needs only that the hasher
      verifies a password against its own hash. */
  lemma RegisterVerifyLogin(store: Store, req: UserCreate, h: Hasher, secret: string, code: string,
                            t0: int, t1: int, t2: int, t3: int)
    requires Sound(h)
    requires req.email !in store
    requires t1 <= t0 + CodeLifetime
    requires t3 <= t2 + JwtExpirationTime
    ensures RegisterWithCode(store, t0, req, h, code).Success?
    ensures var s1 := RegisterWithCode(store, t0, req, h, code).value;
            && VerifyUserEmail(s1, t1, req.email, code).Success?
            && var s2 := VerifyUserEmail(s1, t1, req.email, code).value;
               && LoginExistingUser(s2, t2, req.email, req.password, h, secret).Success?
               && var login := LoginExistingUser(s2, t2, req.email, req.password, h, secret).value;
                  DecodeAccessToken(login.token, secret, t3)
                  == Success(map["sub" := Text(req.email), "exp" := Number(login.expiry)])
  {
    var s1 := RegisterWithCode(store, t0, req, h, code).value;
    var s2 := VerifyUserEmail(s1, t1, req.email, code).value;
    var login := LoginExistingUser(s2, t2, req.email, req.password, h, secret).value;
    CreateThenDecode(map["sub" := Text(req.email)], secret, t2, t3);
  }
}

=== FILE: auth_routes.dfy ===
/** The older `POST /auth/register` handler, which registers inline instead of
    calling the service: its code is `str(random.randint(100000, 999999))`
    and no e-mail is sent. */
module AuthRoutes {
  import opened Wrappers
  import opened HttpErrors
  import opened Text
  import opened Security
  import opened UserModel
  import opened UserSchema
  import AuthService

  const RegisteredMessage: string := "Registration successful. Please check your email to verify your account."
  const LowestCode: nat := 100000
  const HighestCode: nat := 999999

  datatype RegisterReply = RegisterReply(store: AuthService.Store, msg: string)

  /** The handler with the integer `drawn` that `randint` returned. */
  function Register(store: AuthService.Store, now: int, req: UserCreate, h: Hasher, drawn: nat)
    : (r: Result<RegisterReply, HttpError>)
    ensures req.email in store ==> r == Failure(HttpError(Conflict409, AuthService.AlreadyExistsDetail))
    ensures req.email !in store ==> r.Success? && r.value.msg == RegisteredMessage
    ensures r.Success? ==> r.value.store.Keys == store.Keys + {req.email}
    ensures r.Success? ==> forall e :: e in store ==> r.value.store[e] == store[e]
    ensures r.Success? ==> var u := r.value.store[req.email];
              && u.email == req.email
              && u.hashedPassword == h.hash(req.password)
              && !u.isVerified
              && u.verificationCode == Some(DecimalString(drawn))
              && u.verificationCodeExpiresAt == Some(now + AuthService.CodeLifetime)
              && u.createdAt == now && u.updatedAt == now
  {
    if req.email in store then Failure(HttpError(Conflict409, AuthService.AlreadyExistsDetail))
    else
      var verificationCode := DecimalString(drawn);
      var expiresAt := now + AuthService.CodeLifetime;
      var user := NewUser(req.email, h.hash(req.password), Some(verificationCode), Some(expiresAt), now, now);
      Success(RegisterReply(store[req.email := user], RegisteredMessage))
  }

  /** The handler with the random draw: the stored code is exactly six ASCII
      digits, does not start with '0', and reads back as the drawn number. */
  method RegisterNewUser(store: AuthService.Store, now: int, req: UserCreate, h: Hasher)
    returns (r: Result<RegisterReply, HttpError>)
    ensures req.email in store ==> r == Failure(HttpError(Conflict409, AuthService.AlreadyExistsDetail))
    ensures req.email !in store ==> r.Success?
    ensures r.Success? ==> req.email in r.value.store && r.value.store[req.email].verificationCode.Some?
    ensures r.Success? ==> var code := r.value.store[req.email].verificationCode.value;
              && |code| == 6 && AllDigits(code) && code[0] != '0'
              && LowestCode <= ParseDecimal(code) <= HighestCode
  {
    var drawn: nat :| LowestCode <= drawn <= HighestCode;
    r := Register(store, now, req, h, drawn);
    DecimalStringLength(drawn);
    SixDigitRange(drawn);
    DecimalStringNoLeadingZero(drawn);
    ParseDecimalString(drawn);
  }

  /** Given the same code, the handler builds the same store as the service's
      `register_new_user`, and fails the same way. */
  lemma RegisterMatchesService(store: AuthService.Store, now: int, req: UserCreate, h: Hasher, drawn: nat)
    ensures var legacy := Register(store, now, req, h, drawn);
            var service := AuthService.RegisterWithCode(store, now, req, h, DecimalString(drawn));
            && (legacy.Success? <==> service.Success?)
            && (legacy.Success? ==> legacy.value.store == service.value)
            && (legacy.Failure? ==> legacy.error == service.error)
  {
  }
}

=== FILE: auth_service.dfy ===
/** The account credential and verification state machine of `AuthService`.
    Accounts live in a store keyed by e-mail; every operation is a function
    of the store, the current time (UTC seconds) and its inputs. A failure
    carries no store: nothing is committed and the caller keeps the store it
    had. Outgoing e-mails are not modelled. */
module AuthService {
  import opened Wrappers
  import opened HttpErrors
  import opened Security
  import opened UserModel
  import opened UserSchema
  import opened Jwt
  import Helpers

  /** A verification code is valid for ten minutes. */
  const CodeLifetime: int := 10 * 60
  const CodeLength: int := 6

  const AlreadyExistsDetail: string := "Account already exists"
  const NotFoundDetail: string := "Account does not exist"
  const AlreadyVerifiedDetail: string := "Account already verified"
  const ResendAlreadyVerifiedDetail: string := "Account is already verified"
  const InvalidCodeDetail: string := "Invalid or expired verification code"
  const InvalidLoginDetail: string := "Invalid login credentials"
  const UnverifiedLoginDetail: string := "Account is unverified, kindly verify your email"
  const BearerType: string := "bearer"

  type Store = map<string, User>

  /** What every reachable store satisfies: each account is filed under its
      own e-mail, a pending code always has an expiry and vice versa, and a
      verified account holds no pending code. */
  ghost predicate Consistent(store: Store) {
    forall e :: e in store ==>
      && store[e].email == e
      && (store[e].verificationCode.Some? <==> store[e].verificationCodeExpiresAt.Some?)
      && (store[e].isVerified ==> store[e].verificationCode.None?)
  }

  /** `AuthService.generate_verification_code`, the same generator as the
      helper module's. */
  method GenerateVerificationCode(length: int := CodeLength) returns (code: string)
    ensures Helpers.IsCode(code, length)
  {
    code := Helpers.GenerateVerificationCode(length);
  }

  /** The account a registration creates: unverified, holding the hash of the
      password and the fresh code, which expires ten minutes from `now`. */
  function PendingAccount(req: UserCreate, h: Hasher, code: string, now: int): User
  {
    NewUser(req.email, h.hash(req.password), Some(code), Some(now + CodeLifetime), now, now)
  }

  /** `register_new_user` with the code the generator drew. */
  function RegisterWithCode(store: Store, now: int, req: UserCreate, h: Hasher, code: string)
    : (r: Result<Store, HttpError>)
    ensures req.email in store ==> r == Failure(HttpError(Conflict409, AlreadyExistsDetail))
    ensures req.email !in store ==> r.Success?
    ensures r.Success? ==> r.value.Keys == store.Keys + {req.email} && |r.value| == |store| + 1
    ensures r.Success? ==> forall e :: e in store ==> r.value[e] == store[e]
    ensures r.Success? ==> var u := r.value[req.email];
              && u.email == req.email
              && u.hashedPassword == h.hash(req.password)
              && !u.isVerified && u.isEnabled && u.role == USER
              && u.verificationCode == Some(code)
              && u.verificationCodeExpiresAt == Some(now + CodeLifetime)
              && u.createdAt == now && u.updatedAt == now
              && u.name.None? && u.lastLoginAt.None?
  {
    if req.email in store then Failure(HttpError(Conflict409, AlreadyExistsDetail))
    else Success(store[req.email := PendingAccount(req, h, code, now)])
  }

  /** `register_new_user`: draws a fresh six-digit code, then registers. */
  method RegisterNewUser(store: Store, now: int, req: UserCreate, h: Hasher) returns (r: Result<Store, HttpError>)
    ensures req.email in store ==> r == Failure(HttpError(Conflict409, AlreadyExistsDetail))
    ensures req.email !in store ==> r.Success?
    ensures r.Success? ==> r.value.Keys == store.Keys + {req.email}
    ensures r.Success? ==> forall e :: e in store ==> r.value[e] == store[e]
    ensures r.Success? ==> var u := r.value[req.email];
              && !u.isVerified
              && u.hashedPassword == h.hash(req.password)
              && u.verificationCode.Some? && Helpers.IsCode(u.verificationCode.value, CodeLength)
              && u.verificationCodeExpiresAt == Some(now + CodeLifetime)
  {
    var code := GenerateVerificationCode();
    r := RegisterWithCode(store, now, req, h, code);
  }

  /** `verify_user_email`: 404 before 409 before 400. The code must equal the
      stored one and the stored expiry must be present and not earlier than
      `now`; an expiry equal to `now` is still accepted. */
  function VerifyUserEmail(store: Store, now: int, email: string, code: string): (r: Result<Store, HttpError>)
    ensures email !in store ==> r == Failure(HttpError(NotFound404, NotFoundDetail))
    ensures email in store && store[email].isVerified ==> r == Failure(HttpError(Conflict409, AlreadyVerifiedDetail))
    ensures email in store && !store[email].isVerified ==>
              (r.Success? <==>
                 && store[email].verificationCode == Some(code)
                 && store[email].verificationCodeExpiresAt.Some?
                 && now <= store[email].verificationCodeExpiresAt.value)
    ensures email in store && !store[email].isVerified && r.Failure?
            ==> r.error == HttpError(BadRequest400, InvalidCodeDetail)
    ensures r.Success? ==> r.value.Keys == store.Keys
    ensures r.Success? ==> forall e :: e in store && e != email ==> r.value[e] == store[e]
    ensures r.Success? ==>
              r.value[email] == store[email].(isVerified := true, verificationCode := None,
                                              verificationCodeExpiresAt := None)
  {
    if email !in store then Failure(HttpError(NotFound404, NotFoundDetail))
    else
      var user := store[email];
      if user.isVerified then Failure(HttpError(Conflict409, AlreadyVerifiedDetail))
      else
        var expiresAt := user.verificationCodeExpiresAt;
        if user.verificationCode != Some(code) || expiresAt.None? || expiresAt.value < now then
          Failure(HttpError(BadRequest400, InvalidCodeDetail))
        else
          Success(store[email := user.(isVerified := true, verificationCode := None,
                                       verificationCodeExpiresAt := None)])
  }

  datatype LoginResponse = LoginResponse(token: Token, tokenType: string, expiry: int)

  /** `login_existing_user`: 401 when the account is missing or the password
      does not verify (the same error either way), then 403 when unverified;
      otherwise a bearer token for the account's e-mail that expires with the
      reported expiry. The store is read, never written. */
  function LoginExistingUser(store: Store, now: int, email: string, password: string, h: Hasher, secret: string)
    : (r: Result<LoginResponse, HttpError>)
    ensures email !in store || !h.verify(password, store[email].hashedPassword)
            ==> r == Failure(HttpError(Unauthorized401, InvalidLoginDetail))
    ensures email in store && h.verify(password, store[email].hashedPassword) && !store[email].isVerified
            ==> r == Failure(HttpError(Forbidden403, UnverifiedLoginDetail))
    ensures r.Success? <==>
              email in store && h.verify(password, store[email].hashedPassword) && store[email].isVerified
    ensures r.Success? ==> r.value.tokenType == BearerType && r.value.expiry == now + JwtExpirationTime
    ensures r.Success? ==> r.value.token.Signed? && r.value.token.key == secret
    ensures r.Success? ==> r.value.token.claims == map["sub" := Text(store[email].email), "exp" := Number(r.value.expiry)]
  {
    if email !in store || !h.verify(password, store[email].hashedPassword) then
      Failure(HttpError(Unauthorized401, InvalidLoginDetail))
    else
      var user := store[email];
      if !user.isVerified then Failure(HttpError(Forbidden403, UnverifiedLoginDetail))
      else
        var expire := now + JwtExpirationTime;
        var accessToken := CreateAccessToken(map["sub" := Text(user.email)], secret, now);
        Success(LoginResponse(accessToken, BearerType, expire))
  }

  /** `resend_verification_email` with the code the generator drew: 404, then
      409, otherwise the pending code, its expiry and `updated_at` are
      replaced and nothing else changes. */
  function ResendWithCode(store: Store, now: int, email: string, code: string): (r: Result<Store, HttpError>)
    ensures email !in store ==> r == Failure(HttpError(NotFound404, NotFoundDetail))
    ensures email in store && store[email].isVerified
            ==> r == Failure(HttpError(Conflict409, ResendAlreadyVerifiedDetail))
    ensures r.Success? <==> email in store && !store[email].isVerified
    ensures r.Success? ==> r.value.Keys == store.Keys
    ensures r.Success? ==> forall e :: e in store && e != email ==> r.value[e] == store[e]
    ensures r.Success? ==>
              r.value[email] == store[email].(verificationCode := Some(code),
                                              verificationCodeExpiresAt := Some(now + CodeLifetime),
                                              updatedAt := now)
  {
    if email !in store then Failure(HttpError(NotFound404, NotFoundDetail))
    else
      var existing := store[email];
      if existing.isVerified then Failure(HttpError(Conflict409, ResendAlreadyVerifiedDetail))
      else
        Success(store[email := existing.(verificationCode := Some(code),
                                         verificationCodeExpiresAt := Some(now + CodeLifetime),
                                         updatedAt := now)])
  }

  /** `resend_verification_email`: draws a fresh six-digit code, then resends. */
  method ResendVerificationEmail(store: Store, now: int, email: string) returns (r: Result<Store, HttpError>)
    ensures email !in store ==> r == Failure(HttpError(NotFound404, NotFoundDetail))
    ensures email in store && store[email].isVerified
            ==> r == Failure(HttpError(Conflict409, ResendAlreadyVerifiedDetail))
    ensures r.Success? <==> email in store && !store[email].isVerified
    ensures r.Success? ==> r.value.Keys == store.Keys
    ensures r.Success? ==> forall e :: e in store && e != email ==> r.value[e] == store[e]
    ensures r.Success? ==>
              r.value[email].(verificationCode := None, verificationCodeExpiresAt := None, updatedAt := 0)
              == store[email].(verificationCode := None, verificationCodeExpiresAt := None, updatedAt := 0)
    ensures r.Success? ==> var u := r.value[email];
              && u.verificationCode.Some? && Helpers.IsCode(u.verificationCode.value, CodeLength)
              && u.verificationCodeExpiresAt == Some(now + CodeLifetime)
              && u.updatedAt == now
  {
    var code := GenerateVerificationCode();
    r := ResendWithCode(store, now, email, code);
  }

  /** `reset_user_password` once the token's subject `email` is known. The
      source dereferences the looked-up account without checking it, so the
      account must exist. Only the hash and `updated_at` change. */
  function ResetUserPassword(store: Store, now: int, email: string, newPassword: string, h: Hasher): (r: Store)
    requires email in store
    ensures r.Keys == store.Keys
    ensures forall e :: e in store && e != email ==> r[e] == store[e]
    ensures r[email] == store[email].(hashedPassword := h.hash(newPassword), updatedAt := now)
  {
    var existing := store[email];
    store[email := existing.(hashedPassword := h.hash(newPassword), updatedAt := now)]
  }

  /** The reset e-mail a password-reset request dispatches: its recipient and
      the subject its (unmodelled) reset token is minted for. */
  datatype ResetMail = ResetMail(recipient: string, subject: string)

  /** The message of the `AttributeError` behind the 500; the client sees
      only the status. */
  const NoneEmailDetail: string := "'NoneType' object has no attribute 'email'"

  /** `request_password_reset` as written: the guard's body is `...`, so the
      handler goes on to mint a token and reads `existing_user.email`, which
      raises when no account exists. */
  function RequestPasswordResetAsWritten(store: Store, email: string): (r: Result<ResetMail, HttpError>)
    ensures r.Failure? <==> email !in store
    ensures r.Failure? ==> r.error.status == InternalError500
    ensures r.Success? ==> r.value == ResetMail(store[email].email, email)
  {
    if email !in store then Failure(HttpError(InternalError500, NoneEmailDetail))
    else Success(ResetMail(store[email].email, email))
  }

  /** The caller sees a 500 for an unknown address and success for a known
      one, verified or not, so the response reveals which addresses have
      accounts; and an unverified account is sent a reset link. */
  lemma RequestPasswordResetAsWrittenLeaks(u: User)
    requires u.email == "a@x.com" && !u.isVerified
    ensures RequestPasswordResetAsWritten(map[], "a@x.com").Failure?
    ensures RequestPasswordResetAsWritten(map["a@x.com" := u], "a@x.com") == Success(ResetMail("a@x.com", "a@x.com"))
  {
  }

  /** What the caller of a password-reset request observes. */
  datatype ResetReply = ResetRequested

  datatype ResetOutcome = ResetOutcome(reply: ResetReply, mail: Option<ResetMail>)

  /** `request_password_reset` with the guard returning as its comment says:
      nothing is sent unless the account exists and is verified. */
  function RequestPasswordReset(store: Store, email: string): (r: ResetOutcome)
    ensures r.mail.Some? <==> email in store && store[email].isVerified
    ensures r.mail.Some? ==> r.mail.value == ResetMail(store[email].email, email)
  {
    if email !in store || !store[email].isVerified then ResetOutcome(ResetRequested, None)
    else ResetOutcome(ResetRequested, Some(ResetMail(store[email].email, email)))
  }

  /** In the corrected request an unknown address and an unverified account
      are indistinguishable: same reply, and no mail either way. */
  lemma RequestPasswordResetIndistinguishable(s1: Store, s2: Store, e1: string, e2: string)
    requires e1 !in s1 || !s1[e1].isVerified
    requires e2 !in s2 || !s2[e2].isVerified
    ensures RequestPasswordReset(s1, e1) == RequestPasswordReset(s2, e2)
  {
  }
}

=== FILE: dependencies.dfy ===
/** The request gates: `get_current_user` resolves a bearer token to a stored
    user, `check_verified_user` admits only verified users. The user lookup
    `session.get(User, int(user_id))` is abstract: `findById` maps the `sub`
    claim to the stored user, if any. */
module Dependencies {
  import opened Wrappers
  import opened HttpErrors
  import opened Jwt
  import opened UserModel

  const InvalidCredentialsDetail: string := "Invalid authentication credentials"
  const AccountNotFoundDetail: string := "Account not found"
  const UnverifiedDetail: string := "Account is unverified, kindly verify your email"

  /** Python truthiness of a claim value: "" and 0 are false. A decoded
      `sub` is always a string, so only the first case arises for it. */
  predicate Truthy(c: Claim) {
    match c
    case Text(s) => s != ""
    case Number(n) => n != 0
  }

  /** `get_current_user`: every failure is a 401, with the detail saying
      which step failed. */
  function GetCurrentUser(t: Token, secret: string, now: int, findById: Claim -> Option<User>)
    : (r: Result<User, HttpError>)
    ensures r.Failure? ==> r.error.status == Unauthorized401
    ensures DecodeAccessToken(t, secret, now).Failure? ==> r == Failure(HttpError(Unauthorized401, CredentialsDetail))
    ensures r.Success? <==>
              && DecodeAccessToken(t, secret, now).Success?
              && "sub" in t.claims && Truthy(t.claims["sub"])
              && findById(t.claims["sub"]).Some?
    ensures r.Success? ==> r.value == findById(t.claims["sub"]).value
    ensures DecodeAccessToken(t, secret, now).Success? && ("sub" !in t.claims || !Truthy(t.claims["sub"]))
            ==> r == Failure(HttpError(Unauthorized401, InvalidCredentialsDetail))
    ensures DecodeAccessToken(t, secret, now).Success? && "sub" in t.claims && Truthy(t.claims["sub"])
            && findById(t.claims["sub"]).None?
            ==> r == Failure(HttpError(Unauthorized401, AccountNotFoundDetail))
  {
    var payload :- DecodeAccessToken(t, secret, now);
    var userId := if "sub" in payload then Some(payload["sub"]) else None;
    if userId.None? || !Truthy(userId.value) then
      Failure(HttpError(Unauthorized401, InvalidCredentialsDetail))
    else
      var user := findById(userId.value);
      if user.None? then Failure(HttpError(Unauthorized401, AccountNotFoundDetail))
      else Success(user.value)
  }

  /** `check_verified_user`: the same user back when verified, else 403. */
  function CheckVerifiedUser(u: User): (r: Result<User, HttpError>)
    ensures r.Success? <==> u.isVerified
    ensures r.Success? ==> r.value == u
    ensures r.Failure? ==> r.error == HttpError(Forbidden403, UnverifiedDetail)
  {
    if !u.isVerified then Failure(HttpError(Forbidden403, UnverifiedDetail))
    else Success(u)
  }

  /** The two gates chained, as `Depends(get_current_user)` chains them:
      authentication errors come first. */
  function CurrentVerifiedUser(t: Token, secret: string, now: int, findById: Claim -> Option<User>)
    : (r: Result<User, HttpError>)
    ensures GetCurrentUser(t, secret, now, findById).Failure? ==> r == GetCurrentUser(t, secret, now, findById)
    ensures r.Success? ==> r == GetCurrentUser(t, secret, now, findById) && r.value.isVerified
    ensures r.Success? <==>
              GetCurrentUser(t, secret, now, findById).Success? && GetCurrentUser(t, secret, now, findById).value.isVerified
    ensures GetCurrentUser(t, secret, now, findById).Success? && !r.Success?
            ==> r.error == HttpError(Forbidden403, UnverifiedDetail)
  {
    var user :- GetCurrentUser(t, secret, now, findById);
    CheckVerifiedUser(user)
  }

  /** A token issued for a string subject that resolves to a stored user,
      carrying none of the other claims the library checks, authenticates as
      that user for the token's whole lifetime. */
  lemma TokenAuthenticatesItsSubject(data: Claims, secret: string, issued: int, now: int,
                                     findById: Claim -> Option<User>, u: User)
    requires now <= issued + JwtExpirationTime
    requires "sub" in data && data["sub"].Text? && data["sub"] != Text("")
    requires "aud" !in data && "nbf" !in data && "iat" !in data && "jti" !in data && "at_hash" !in data
    requires findById(data["sub"]) == Some(u)
    ensures GetCurrentUser(CreateAccessToken(data, secret, issued), secret, now, findById) == Success(u)
  {
  }
}

=== FILE: helpers.dfy ===
/** `generate_verification_code`: `length` characters drawn independently from
    `string.digits`. The random draw is a nondeterministic choice. */
module Helpers {
  import opened Text

  const DefaultCodeLength: int := 6

  /** A code of `length` digits; a negative `length` gives the empty string, as
      `random.choices` does. */
  predicate IsCode(code: string, length: int) {
    |code| == (if length < 0 then 0 else length) && AllDigits(code)
  }

  method GenerateVerificationCode(length: int := DefaultCodeLength) returns (code: string)
    ensures |code| == if length < 0 then 0 else length
    ensures forall i :: 0 <= i < |code| ==> '0' <= code[i] <= '9'
  {
    code := "";
    var drawn := 0;
    while drawn < length
      invariant 0 <= drawn <= (if length < 0 then 0 else length)
      invariant |code| == drawn
      invariant AllDigits(code)
    {
      var d: nat :| d < |Digits|;
      code := code + [Digits[d]];
      drawn := drawn + 1;
    }
  }
}

=== FILE: jwt.dfy ===
/** Access tokens: the payload `create_access_token` signs and the way
    `decode_access_token` turns every decoding failure into a 401.
    Signing is abstract: a token records the algorithm its header names, its
    claims, and the key it was signed with. */
module Jwt {
  import opened Wrappers
  import opened HttpErrors

  /** The one algorithm used to sign and accepted when verifying. */
  const Algorithm: string := "HS256"

  /** Default token lifetime in seconds (six hours). */
  const JwtExpirationTime: int := 6 * 60 * 60

  const CredentialsDetail: string := "Could not validate credentials"

  /** A claim value: the payload holds strings and integers, and the
      expiry is encoded as integer UTC seconds. */
  datatype Claim = Text(text: string) | Number(number: int)

  type Claims = map<string, Claim>

  datatype Token = Signed(alg: string, claims: Claims, key: string) | Malformed(raw: string)

  /** `create_access_token(data)` at time `now`: a copy of `data` with `exp`
      set to now plus the lifetime, signed with `secret` under HS256. */
  function CreateAccessToken(data: Claims, secret: string, now: int): (t: Token)
    ensures t.Signed? && t.alg == Algorithm && t.key == secret
    ensures t.claims.Keys == data.Keys + {"exp"}
    ensures t.claims["exp"] == Number(now + JwtExpirationTime)
    ensures forall k :: k in data && k != "exp" ==> t.claims[k] == data[k]
  {
    var toEncode := data;
    Signed(Algorithm, toEncode["exp" := Number(now + JwtExpirationTime)], secret)
  }

  /** What the JOSE library's `jwt.decode(token, key, algorithms=…)` accepts,
      as far as this model goes: a well-formed token whose header names an
      allowed algorithm, signed with `key`, whose `exp` (if any) is an integer
      not earlier than `now`, whose `nbf` (if any) is an integer not later than
      `now`, whose `iat` (if any) is an integer, whose `sub` and `jti` (if any)
      are strings, and which carries neither `aud` (no audience is passed) nor
      `at_hash` (no access token is passed). */
  function JoseDecode(t: Token, key: string, algorithms: seq<string>, now: int): Option<Claims>
  {
    if t.Malformed? || t.alg !in algorithms || t.key != key then None
    else if "exp" in t.claims && (t.claims["exp"].Text? || t.claims["exp"].number < now) then None
    else if "nbf" in t.claims && (t.claims["nbf"].Text? || t.claims["nbf"].number > now) then None
    else if "iat" in t.claims && t.claims["iat"].Text? then None
    else if "sub" in t.claims && !t.claims["sub"].Text? then None
    else if "jti" in t.claims && !t.claims["jti"].Text? then None
    else if "aud" in t.claims || "at_hash" in t.claims then None
    else Some(t.claims)
  }

  /** `decode_access_token(token)`: the claims of a valid token, or the
      library's error mapped to 401 "Could not validate credentials". */
  function DecodeAccessToken(t: Token, secret: string, now: int): (r: Result<Claims, HttpError>)
    ensures r.Failure? ==> r.error == HttpError(Unauthorized401, CredentialsDetail)
    ensures r.Success? ==> t.Signed? && r.value == t.claims
    ensures r.Success? <==> JoseDecode(t, secret, [Algorithm], now).Some?
    ensures t.Signed? && t.alg != Algorithm ==> r.Failure?
    ensures t.Signed? && t.key != secret ==> r.Failure?
    ensures r.Success? && "sub" in r.value ==> r.value["sub"].Text?
    ensures r.Success? ==> "aud" !in r.value && "at_hash" !in r.value
  {
    var payload := JoseDecode(t, secret, [Algorithm], now);
    if payload.None? then Failure(HttpError(Unauthorized401, CredentialsDetail))
    else Success(payload.value)
  }

  /** A token whose subject, if any, is a string and which carries none of
      the other claims the library checks decodes, with the same secret, to
      exactly what was signed until its expiry instant, inclusive. */
  lemma CreateThenDecode(data: Claims, secret: string, issued: int, now: int)
    requires now <= issued + JwtExpirationTime
    requires "sub" in data ==> data["sub"].Text?
    requires "aud" !in data && "nbf" !in data && "iat" !in data && "jti" !in data && "at_hash" !in data
    ensures DecodeAccessToken(CreateAccessToken(data, secret, issued), secret, now)
            == Success(CreateAccessToken(data, secret, issued).claims)
  {
  }

  /** A token carrying a non-string subject is refused with 401 at any time. */
  lemma NonTextSubjectRejected(data: Claims, secret: string, issued: int, now: int)
    requires "sub" in data && data["sub"].Number?
    ensures DecodeAccessToken(CreateAccessToken(data, secret, issued), secret, now)
            == Failure(HttpError(Unauthorized401, CredentialsDetail))
  {
  }

  /** After its expiry a token is refused with 401. */
  lemma ExpiredTokenRejected(data: Claims, secret: string, issued: int, now: int)
    requires now > issued + JwtExpirationTime
    ensures DecodeAccessToken(CreateAccessToken(data, secret, issued), secret, now)
            == Failure(HttpError(Unauthorized401, CredentialsDetail))
  {
  }
}

=== FILE: pet_model.dfy ===
/** The `Pet` table model: field defaults, the `Sex` string enum and the
    write-once `created_at`. The `Species` table and the `owner`
    relationship are not part of this model. */
module PetModel {
  import opened Wrappers
  import opened Attributes

  datatype Sex = Male | Female | NotSpecified

  /** The string value of each `Sex` member. */
  function SexValue(s: Sex): string {
    match s
    case Male => "Male"
    case Female => "Female"
    case NotSpecified => "Not Specified"
  }

  /** `Sex(v)`: look a member up by its value. */
  function ParseSex(v: string): (r: Option<Sex>)
    ensures r.Some? <==> v == "Male" || v == "Female" || v == "Not Specified"
  {
    if v == "Male" then Some(Male)
    else if v == "Female" then Some(Female)
    else if v == "Not Specified" then Some(NotSpecified)
    else None
  }

  /** `Sex` has exactly three members and each is recovered from its value. */
  lemma SexRoundTrip(s: Sex, v: string)
    ensures ParseSex(SexValue(s)) == Some(s)
    ensures ParseSex(v) == Some(s) <==> SexValue(s) == v
    ensures s == Male || s == Female || s == NotSpecified
  {
  }

  datatype Pet = Pet(
    id: Option<int>,
    name: Option<string>,
    sex: Sex,
    specieId: Option<int>,
    breed: Option<string>,
    birthDate: Option<int>,
    profileImageUrl: Option<string>,
    ownerId: int,
    createdAt: int,
    updatedAt: int)

  /** `Pet(owner_id=…)` at time `now`: the owner is the only field without a
      default; both timestamps come from the default factory. */
  function NewPet(ownerId: int, now: int): (p: Pet)
    ensures p.ownerId == ownerId
    ensures p.sex == NotSpecified
    ensures p.id.None? && p.name.None? && p.specieId.None?
    ensures p.breed.None? && p.birthDate.None? && p.profileImageUrl.None?
    ensures p.createdAt == now && p.updatedAt == now
  {
    Pet(None, None, NotSpecified, None, None, None, None, ownerId, now, now)
  }

  /** The instance attributes of a `Pet`, in declaration order. */
  function Fields(p: Pet): seq<(string, Value)> {
    [ ("id", OptionalInt(p.id)),
      ("name", OptionalText(p.name)),
      ("sex", StrValue(SexValue(p.sex))),
      ("specie_id", OptionalInt(p.specieId)),
      ("breed", OptionalText(p.breed)),
      ("birthDate", OptionalTime(p.birthDate)),
      ("profileImageURL", OptionalText(p.profileImageUrl)),
      ("owner_id", IntValue(p.ownerId)),
      (CreatedAt, TimeValue(p.createdAt)),
      ("updated_at", TimeValue(p.updatedAt)) ]
  }

  /** Building a `Pet` through `__setattr__` succeeds; afterwards `created_at`
      cannot be reassigned (the instance is left as it was), while every other
      declared field, `updated_at` included, is assigned as given. */
  lemma {:induction false} PetCreatedAtWriteOnce(p: Pet, name: string, v: Value)
    requires name in Names(Fields(p))
    ensures Construct(Fields(p)).raised.None?
    ensures CreatedAt in Construct(Fields(p)).obj
    ensures Construct(Fields(p)).obj[CreatedAt] == TimeValue(p.createdAt)
    ensures var obj := Construct(Fields(p)).obj;
            var after := WriteOnceSetAttr(obj, name, v);
            && (name == CreatedAt ==> after.raised == Some(AttributeError(ImmutableMessage)) && after.obj == obj)
            && (name != CreatedAt ==> after.raised.None? && after.obj == obj[name := v])
  {
    var fs := Fields(p);
    assert fs[8].0 == CreatedAt;
    assert CreatedAt in Names(fs);
    ConstructedIsWriteOnce(fs, name, v);
    AssignAllDistinct(map[], fs);
  }
}

=== FILE: security.dfy ===
/** Password hashing, kept abstract. The hashing library is not part of this
    model: a `Hasher` is any pair of functions, and the one fact the core
    relies on — a password verifies against its own hash — is the predicate
    `Sound`, assumed by the lemmas that need it. */
module Security {

  datatype Hasher = Hasher(hash: string -> string, verify: (string, string) -> bool)

  /** `verify_password(p, hash_password(p))` holds for every password. */
  ghost predicate Sound(h: Hasher) {
    forall p :: h.verify(p, h.hash(p))
  }
}

=== FILE: text.dfy ===
/** Character and string rules shared by the password policy, the code
    generators and the profile initial. Only ASCII is modelled: Python's
    `str.isdigit` and `str.upper` also act on non-ASCII characters. */
module Text {

  /** `string.digits` */
  const Digits: string := "0123456789"

  predicate IsDigit(c: char) {
    '0' <= c <= '9'
  }

  predicate AllDigits(s: string) {
    forall i :: 0 <= i < |s| ==> IsDigit(s[i])
  }

  /** `any(c.isdigit() for c in s)`, scanning from the left. */
  function AnyDigit(s: string): (b: bool)
    ensures b <==> exists i :: 0 <= i < |s| && IsDigit(s[i])
  {
    if |s| == 0 then false
    else if IsDigit(s[0]) then true
    else
      var rest := AnyDigit(s[1..]);
      assert forall i :: 1 <= i < |s| ==> s[i] == s[1..][i - 1];
      rest
  }

  /** The character for digit value `d`. */
  function DigitChar(d: nat): (c: char)
    requires d < 10
    ensures IsDigit(c)
    ensures DigitValue(c) == d
  {
    Digits[d]
  }

  function DigitValue(c: char): nat
    requires IsDigit(c)
  {
    (c as int - '0' as int) as nat
  }

  /** Python's `str(n)` for a non-negative integer: no leading zero, "0" for 0. */
  function DecimalString(n: nat): (s: string)
    ensures |s| > 0
    ensures AllDigits(s)
  {
    if n < 10 then [DigitChar(n)]
    else DecimalString(n / 10) + [DigitChar(n % 10)]
  }

  /** `int(s)` for a non-empty string of ASCII digits. */
  function ParseDecimal(s: string): nat
    requires |s| > 0 && AllDigits(s)
  {
    if |s| == 1 then DigitValue(s[0])
    else ParseDecimal(s[..|s| - 1]) * 10 + DigitValue(s[|s| - 1])
  }

  /** Number of decimal digits of `n` (1 for 0). */
  function DigitCount(n: nat): (k: nat)
    ensures k >= 1
  {
    if n < 10 then 1 else 1 + DigitCount(n / 10)
  }

  /** Printing then parsing a decimal gives the number back. */
  lemma {:induction false} ParseDecimalString(n: nat)
    ensures ParseDecimal(DecimalString(n)) == n
  {
    var s := DecimalString(n);
    if n >= 10 {
      ParseDecimalString(n / 10);
      assert s[..|s| - 1] == DecimalString(n / 10);
    }
  }

  /** The printed form has exactly as many characters as the number has digits. */
  lemma {:induction false} DecimalStringLength(n: nat)
    ensures |DecimalString(n)| == DigitCount(n)
  {
    if n >= 10 {
      DecimalStringLength(n / 10);
    }
  }

  /** The printed form of a positive number does not start with '0'. */
  lemma {:induction false} DecimalStringNoLeadingZero(n: nat)
    requires n > 0
    ensures DecimalString(n)[0] != '0'
  {
    if n >= 10 {
      DecimalStringNoLeadingZero(n / 10);
    }
  }

  /** Every number from 100000 to 999999 has six digits. */
  lemma SixDigitRange(n: nat)
    requires 100000 <= n <= 999999
    ensures DigitCount(n) == 6
  {
    var a := n / 10;
    var b := a / 10;
    var c := b / 10;
    var d := c / 10;
    var e := d / 10;
    assert 1 <= e < 10;
    assert DigitCount(e) == 1;
    assert DigitCount(d) == 2;
    assert DigitCount(c) == 3;
    assert DigitCount(b) == 4;
    assert DigitCount(a) == 5;
  }

  /** ASCII `str.upper` of one character. */
  function ToUpper(c: char): (u: char)
    ensures 'a' <= c <= 'z' ==> 'A' <= u <= 'Z' && u as int == c as int - 32
    ensures !('a' <= c <= 'z') ==> u == c
    ensures !('a' <= u <= 'z')
  {
    if 'a' <= c <= 'z' then (c as int - 32) as char else c
  }
}

=== FILE: user_model.dfy ===
/** The `User` table model: the account record, its field defaults and the
    `Role` string enum. Times are UTC seconds. */
module UserModel {
  import opened Wrappers
  import opened Attributes

  datatype Role = USER | ADMIN

  /** The string value of each `Role` member. */
  function RoleValue(r: Role): string {
    match r
    case USER => "USER"
    case ADMIN => "ADMIN"
  }

  /** `Role(s)`: look a member up by its value. */
  function ParseRole(s: string): (r: Option<Role>)
    ensures r.Some? <==> s == "USER" || s == "ADMIN"
  {
    if s == "USER" then Some(USER)
    else if s == "ADMIN" then Some(ADMIN)
    else None
  }

  /** `Role` has exactly two members and each is recovered from its value. */
  lemma RoleRoundTrip(r: Role, s: string)
    ensures ParseRole(RoleValue(r)) == Some(r)
    ensures ParseRole(s) == Some(r) <==> RoleValue(r) == s
    ensures r == USER || r == ADMIN
  {
  }

  datatype User = User(
    id: Option<int>,
    email: string,
    name: Option<string>,
    isEnabled: bool,
    isVerified: bool,
    hashedPassword: string,
    role: Role,
    verificationCode: Option<string>,
    verificationCodeExpiresAt: Option<int>,
    createdAt: int,
    updatedAt: int,
    lastLoginAt: Option<int>)

  /** `User(email=…, hashed_password=…, verification_code=…,
      verification_code_expires_at=…, created_at=…, updated_at=…)` as the
      registration handlers call it: every other field takes its default.
      The code and its expiry default to `None`, as the columns do. */
  function NewUser(email: string, hashedPassword: string, code: Option<string> := None,
                   expiresAt: Option<int> := None, createdAt: int, updatedAt: int): (u: User)
    ensures u.email == email && u.hashedPassword == hashedPassword
    ensures u.verificationCode == code && u.verificationCodeExpiresAt == expiresAt
    ensures u.createdAt == createdAt && u.updatedAt == updatedAt
    ensures u.id.None? && u.name.None? && u.lastLoginAt.None?
    ensures u.isEnabled && !u.isVerified && u.role == USER
  {
    User(None, email, None, true, false, hashedPassword, USER, code, expiresAt, createdAt, updatedAt, None)
  }

  /** A `User` built without a verification code has no code and no expiry,
      besides the defaults every new account gets. */
  lemma NewUserDefaults(email: string, hashedPassword: string, t: int)
    ensures var u := NewUser(email, hashedPassword, createdAt := t, updatedAt := t);
            && u.verificationCode.None? && u.verificationCodeExpiresAt.None? && u.lastLoginAt.None?
            && u.id.None? && u.name.None? && u.isEnabled && !u.isVerified && u.role == USER
  {
  }

  /** The instance attributes of a `User`, in declaration order. */
  function Fields(u: User): seq<(string, Value)> {
    [ ("id", OptionalInt(u.id)),
      ("email", StrValue(u.email)),
      ("name", OptionalText(u.name)),
      ("is_enabled", BoolValue(u.isEnabled)),
      ("is_verified", BoolValue(u.isVerified)),
      ("hashed_password", StrValue(u.hashedPassword)),
      ("role", StrValue(RoleValue(u.role))),
      ("verification_code", OptionalText(u.verificationCode)),
      ("verification_code_expires_at", OptionalTime(u.verificationCodeExpiresAt)),
      (CreatedAt, TimeValue(u.createdAt)),
      ("updated_at", TimeValue(u.updatedAt)),
      ("last_login_at", OptionalTime(u.lastLoginAt)) ]
  }

  /** Building a `User` through `__setattr__` succeeds and records its
      `created_at`; afterwards `created_at` cannot be reassigned (the instance
      is left as it was) while every other declared field can. */
  lemma {:induction false} UserCreatedAtWriteOnce(u: User, name: string, v: Value)
    requires name in Names(Fields(u))
    ensures Construct(Fields(u)).raised.None?
    ensures CreatedAt in Construct(Fields(u)).obj
    ensures Construct(Fields(u)).obj[CreatedAt] == TimeValue(u.createdAt)
    ensures var obj := Construct(Fields(u)).obj;
            var after := WriteOnceSetAttr(obj, name, v);
            && (name == CreatedAt ==> after.raised == Some(AttributeError(ImmutableMessage)) && after.obj == obj)
            && (name != CreatedAt ==> after.raised.None? && after.obj == obj[name := v])
  {
    var fs := Fields(u);
    assert fs[9].0 == CreatedAt;
    assert CreatedAt in Names(fs);
    ConstructedIsWriteOnce(fs, name, v);
    AssignAllDistinct(map[], fs);
  }
}

=== FILE: user_routes.dfy ===
/** The `GET /user/` route, which repeats the service's profile logic inline
    and wraps the result in the standard response envelope. The envelope's
    wall-clock `timestamp` is not part of this model. */
module UserRoutes {
  import opened Text
  import opened UserModel
  import UserService

  const SuccessStatus: string := "success"
  const DetailsMessage: string := "User details retrieved successfully"

  datatype StandardResponse = StandardResponse(status: string, message: string, data: UserService.UserDetails)

  /** The route handler for an authenticated user `u`. */
  function GetCurrentUserDetails(u: User): (r: StandardResponse)
    requires u.email != ""
    ensures r.status == SuccessStatus && r.message == DetailsMessage
    ensures r.data.email == u.email && r.data.name == u.name
    ensures r.data.role == u.role && r.data.isVerified == u.isVerified
    ensures |r.data.initial| == 1
    ensures r.data.initial[0] == ToUpper(if UserService.HasName(u) then u.name.value[0] else u.email[0])
  {
    var userInitial :=
      match u.name
      case Some(n) => if |n| > 0 then [ToUpper(n[0])] else [ToUpper(u.email[0])]
      case None => [ToUpper(u.email[0])];
    var data := UserService.UserDetails(u.email, u.name, userInitial, u.role, u.isVerified);
    StandardResponse(SuccessStatus, DetailsMessage, data)
  }

  /** The route and the service compute the same profile for every user. */
  lemma RouteMatchesService(u: User)
    requires u.email != ""
    ensures GetCurrentUserDetails(u).data == UserService.GetCurrentUserDetails(u)
  {
  }
}

=== FILE: user_schema.dfy ===
/** The `UserCreate` request body: an e-mail and a password that passed the
    length bounds and the `password_strength` validator. */
module UserSchema {
  import opened Wrappers
  import opened Text

  const MinPasswordLength: nat := 8
  const MaxPasswordLength: nat := 128
  const NoDigitMessage: string := "Password must contain at least one number."

  /** Why a password was rejected. The length bounds are checked by the field
      constraint before the validator runs, so at most one error is reported. */
  datatype PolicyError = TooShort | TooLong | NoDigit(message: string)

  datatype UserCreate = UserCreate(email: string, password: string)

  /** An acceptable password: within the bounds and holding an ASCII digit. */
  predicate Acceptable(v: string) {
    MinPasswordLength <= |v| <= MaxPasswordLength && exists i :: 0 <= i < |v| && IsDigit(v[i])
  }

  /** Field constraint `min_length=8, max_length=128`, then the
      `password_strength` validator, which hands the value back unchanged. */
  function ValidatePassword(v: string): (r: Result<string, PolicyError>)
    ensures r.Success? <==> Acceptable(v)
    ensures r.Success? ==> r.value == v
    ensures |v| < MinPasswordLength ==> r == Failure(TooShort)
    ensures |v| > MaxPasswordLength ==> r == Failure(TooLong)
    ensures MinPasswordLength <= |v| <= MaxPasswordLength && (forall i :: 0 <= i < |v| ==> !IsDigit(v[i]))
            ==> r == Failure(NoDigit(NoDigitMessage))
  {
    if |v| < MinPasswordLength then Failure(TooShort)
    else if |v| > MaxPasswordLength then Failure(TooLong)
    else if !AnyDigit(v) then Failure(NoDigit(NoDigitMessage))
    else Success(v)
  }

  /** Building the request body. E-mail syntax (`EmailStr`) is not checked. */
  function ValidateUserCreate(email: string, password: string): (r: Result<UserCreate, PolicyError>)
    ensures r.Success? <==> Acceptable(password)
    ensures r.Success? ==> r.value == UserCreate(email, password)
    ensures r.Failure? ==> r == Failure(ValidatePassword(password).error)
  {
    var p :- ValidatePassword(password);
    Success(UserCreate(email, p))
  }
}

=== FILE: user_service.dfy ===
/** `get_current_user_details` in the user service: the profile view of a
    user, with the upper-cased initial taken from the name, or from the
    e-mail when there is no name. */
module UserService {
  import opened Wrappers
  import opened Text
  import opened UserModel

  datatype UserDetails = UserDetails(email: string, name: Option<string>, initial: string, role: Role, isVerified: bool)

  /** Python truthiness of `name`: present and non-empty. */
  predicate HasName(u: User) {
    u.name.Some? && u.name.value != ""
  }

  /** The profile of `u`. A validated e-mail is never empty. */
  function GetCurrentUserDetails(u: User): (d: UserDetails)
    requires u.email != ""
    ensures d.email == u.email && d.name == u.name && d.role == u.role && d.isVerified == u.isVerified
    ensures |d.initial| == 1 && !('a' <= d.initial[0] <= 'z')
    ensures HasName(u) ==> d.initial == [ToUpper(u.name.value[0])]
    ensures !HasName(u) ==> d.initial == [ToUpper(u.email[0])]
  {
    var initial := if HasName(u) then [ToUpper(u.name.value[0])] else [ToUpper(u.email[0])];
    UserDetails(u.email, u.name, initial, u.role, u.isVerified)
  }
}

=== FILE: wrappers.dfy ===
/** Option and Result, the two failure-carrying datatypes the model uses in
    place of Python's `None` and raised exceptions. */
module Wrappers {

  datatype Option<+T> = None | Some(value: T)

  /** `Success` is a normal return; `Failure` is an exception the caller sees. */
  datatype Result<+R, +E> = Success(value: R) | Failure(error: E) {

    predicate IsFailure() {
      Failure?
    }

    function PropagateFailure<U>(): Result<U, E>
      requires Failure?
    {
      Failure(error)
    }

    function Extract(): R
      requires Success?
    {
      value
    }
  }
}

/** The HTTP errors the core raises (`fastapi.HTTPException`): a status and
    the fixed `detail` text. */
module HttpErrors {

  datatype Status =
    | BadRequest400
    | Unauthorized401
    | Forbidden403
    | NotFound404
    | Conflict409
      /** An exception the handler does not catch (here: attribute access on
          `None`); the framework answers it with a 500. */
    | InternalError500

  /** A status and the `detail` text of the `HTTPException`; for a 500 the
      text is the message of the uncaught exception, which the client does
      not see. */
  datatype HttpError = HttpError(status: Status, detail: string)
}
